=== FILE: README.md ===
# User directory of the CAB authentication router

This project models the in-memory user directory of `back/auth.js` in Dafny
and proves its properties. The directory is the `users` array. The model
covers the four operations the router runs over it:

- the Google verify callback, which finds or creates a record by `googleId`;
- passport's `serializeUser` / `deserializeUser`, which reduce a record to its
  `googleId` and find it again;
- the `/register` handler, which refuses a taken username and otherwise
  appends `{username, password}`;
- the `/login` handler, which accepts a username/password pair only when some
  record holds both, and then writes the username into the session.

Each operation is a pure function. It takes the store (`seq<User>`) and
returns the new store together with its result. Every record field is an
`Option<string>`. Comparing two options with `==` behaves like JavaScript's
`===` on possibly-`undefined` fields: two absent fields are equal. This is
what the lookups at lines 29, 46, 69 and 79 do.

Modules:

- `Wrappers`: `Option`.
- `Directory`: the `User` record and the `Store`. Also `Query`, which covers the
  three predicates handed to `users.find`, and `Find`/`Lookup`, the
  first-match scan. It also holds the key-uniqueness invariant `Valid`.
- `Federated`: `Profile`, `FindOrCreate`, `Serialize`, `Deserialize` and their
  lemmas.
- `Sessions`: the session fields the router writes (`user` for local login,
  `passport` for the serialised federated id) and `Logout`.
- `Local`: `Register`, `Login` as written, and `LoginChecked`, the corrected
  login (see Findings).
- `Server`: one client's requests as a state machine (`Step`, `Run`) that
  runs every handler as written, the login included, plus
  lemmas that every request sequence keeps the directory and the session
  consistent.

`/register` compares absent usernames as equal too. A request without a
username is refused as "User already exists" as soon as any record lacks a
username: every federated record, and any earlier username-less registration.

## Model

| member | source | states |
|---|---|---|
| Directory.Find | back/auth.js:29 | The scan stops at the first record that satisfies the query. It finds nothing exactly when no record satisfies it. |
| Directory.Lookup | back/auth.js:46 | The record returned is the first matching record. It is absent exactly when none matches. |
| Directory.FindStableUnderAppend | back/auth.js:36 | Appending records never changes the first match of a query the store already answers. |
| Federated.FindOrCreate | back/auth.js:28-39 | If a record already has the profile's id, the store is unchanged and the first such record is returned. Otherwise exactly one record is appended at the end and returned. That record holds the id, the display name, and the first provider email, or `''` when the provider gives none. It has no username or password. |
| Federated.Serialize | back/auth.js:42-44 | The session key of a record is defined exactly when its googleId is. In every directory with unique googleIds that holds the record, a defined key deserialises back to that very record. |
| Federated.Deserialize | back/auth.js:45-48 | A found record is the first record of the store that carries the requested id. Nothing is found exactly when no record carries that id. |
| Federated.DeserializeStableUnderAppend | back/auth.js:36-46 | Appending records never changes the record an id that is already found deserialises to. |
| Federated.FindOrCreateRoundTrip | back/auth.js:42-47 | The record the callback returns deserialises from its serialised googleId to itself, in the store the callback leaves behind. |
| Federated.RoundTrip | back/auth.js:42-47 | In a store with unique googleIds, every record with a defined googleId round-trips through serialise and deserialise. |
| Federated.FindOrCreateIdempotent | back/auth.js:29-37 | A second callback with the same id leaves the store as the first call left it and returns the same record. This holds whatever display name or emails the second profile carries, so an existing record is never overwritten. |
| Federated.FindOrCreatePreservesValid | back/auth.js:29-36 | Find-or-create keeps googleIds and usernames unique among records where they are defined. |
| Sessions.Logout | back/auth.js:88-91 | After logout the session carries no identity. |
| Local.Register | back/auth.js:67-74 | The result is "user exists" if and only if some record has an equal username, absent included. In that case the store is unchanged. Otherwise the result is ok, and exactly one record with the submitted username and password is appended. That record has no other fields. |
| Local.RegisterPreservesValid | back/auth.js:69-72 | Registration keeps records unique per key. |
| Local.Login | back/auth.js:77-85 | Login succeeds if and only if some record has both an equal username and an equal password. On success the session's user becomes the submitted username. On failure the result is invalid credentials and the session is unchanged. The store is only read. |
| Local.LoginWithoutCredentials | back/auth.js:79-83 | Take a store holding one federated record. A login with neither username nor password succeeds there, yet leaves the session unauthenticated. |
| Local.LoginChecked | back/auth.js:77-85 | The corrected login succeeds if and only if a username and a password are both present and some record holds both. Success always leaves that username as the session's identity. |
| Local.RegisterThenLogin | back/auth.js:67-85 | After a successful registration, a login with the same pair succeeds and binds that username. The corrected login does the same when both fields are present. |
| Server.Step | back/auth.js:28-91 | Each request runs its handler as written, the login included: a login request that some record matches, absent fields included, sets the session user to the submitted username, even an absent one, and any other login request leaves the session unchanged. No request removes or alters a record. A request adds at most one record. Login and logout leave the store unchanged. Logout leaves no identity. A registration leaves the session unchanged, and a federated login keeps its local user. |
| Server.EmptyLoginClearsUser | back/auth.js:79-84 | With a Google-created record in the store and a local user logged in, a login request with no username and no password succeeds and leaves the session with no user. |
| Server.Run | back/auth.js:20-91 | Any request sequence only appends to the directory, and adds at most one record per request. |
| Server.InitialConsistent | back/auth.js:20 | The starting state, an empty directory and a fresh session, is consistent. `Server.RunPreservesConsistent` carries that forward along this client's requests, and `Server.OtherClientPreservesConsistent` carries it across each request of another client. |
| Server.OtherClientPreservesConsistent | back/auth.js:20-74 | A request from another client, whatever its session, keeps this client's directory and session consistent. |
| Server.GoogleCallbackBinds | back/auth.js:42-63 | After a federated login, the session's serialised id deserialises to exactly the record the callback resolved. |
| Server.StepPreservesConsistent | back/auth.js:20-91 | Every request keeps keys unique. It also keeps every session identity naming an existing record. |
| Server.ExistsStableUnderAppend | back/auth.js:72 | A record found in the directory is still found after further appends. |
| Server.RunPreservesConsistent | back/auth.js:20-91 | Every request sequence keeps the state consistent. |
| Server.RunKeepsRoundTrip | back/auth.js:42-48 | A record that round-trips through its serialised id keeps round-tripping after any further requests. |

## Findings

| source | as written | input that shows it | evidently intended | confidence | as-written member | corrected member |
|---|---|---|---|---|---|---|
| back/auth.js:79-83 | The credential lookup compares `username` and `password` with `===`, so a request carrying neither field matches any record created by the Google callback, since those records have neither field. | A store holding one Google-created record, and `POST /login` with an empty body. The reply is "Login successful", yet `req.session.user` stays `undefined`. | A login succeeds only for a submitted username and password that some record holds. | medium; not executed | Local.Login (exhibited by Local.LoginWithoutCredentials) | Local.LoginChecked |

## Left out

- The one-time-code engine and email-based identity resolution: `back/auth.js` contains no code for either.
- Express routing, HTTP status codes and JSON bodies (lines 11-17, 51, 70, 73, 81, 84, 90). Each handler's reply is modelled only as its kind (`Ok`, `UserExists`, `InvalidCredentials`).
- The `/user` route (lines 11-17). It only reads `req.user` to build a response.
- The passport OAuth handshake, strategy registration and environment configuration (lines 3, 23-27, 51-56). The verify callback receives the provider profile as an input value.
- Server.Step: the `req.login` / `req.session.save` / redirect sequencing (lines 58-63) is I/O and callback ordering. It is reduced to setting the session's passport field to the serialised id, and a failing session save is not modelled. The session's local `user` is kept across a federated login; passport 0.6 and later regenerate the session on login and would clear it.
- The provider profile: its id is taken as always present. Each email entry is taken to carry a value. A profile whose first email entry has no `value` would store an absent email, which the model does not represent.
- Request bodies whose fields are not strings (numbers, objects) are not modelled. A field is a string or absent.
- Concurrency. Node runs each handler to completion on one thread, so every operation is a sequential, atomic step. `Server.Run` follows the request sequence of one client. Requests from other clients that land in between are covered one at a time by `Server.OtherClientPreservesConsistent`, which keeps consistency; the round-trip persistence of `Server.RunKeepsRoundTrip` holds for them too because every handler only appends, but no single lemma composes an interleaved trace of several clients.
- Password storage is plaintext, as in the source. No hashing is modelled.

=== FILE: directory.dfy ===
/** The in-memory user directory of back/auth.js: the `users` array, which is
    only ever searched front to back and appended to. */
module Directory {
  import opened Wrappers

  /** One entry of the `users` array. Every field may be absent: a record made
      by the federated path carries no username or password, one made by
      local registration carries no googleId, displayName or email. */
  datatype User = User(
    googleId: Option<string>,
    displayName: Option<string>,
    email: Option<string>,
    username: Option<string>,
    password: Option<string>)

  type Store = seq<User>

  /** The predicates the source hands to `users.find`. */
  datatype Query =
    | ByGoogleId(id: Option<string>)
    | ByUsername(name: Option<string>)
    | ByCredentials(name: Option<string>, secret: Option<string>)

  predicate Matches(u: User, q: Query) {
    match q
    case ByGoogleId(id) => u.googleId == id
    case ByUsername(name) => u.username == name
    case ByCredentials(name, secret) => u.username == name && u.password == secret
  }

  /** Some record of the store satisfies the query. */
  ghost predicate Exists(store: Store, q: Query) {
    exists i :: 0 <= i < |store| && Matches(store[i], q)
  }

  /** Position i holds the first record of the store satisfying the query. */
  ghost predicate IsFirstMatch(store: Store, q: Query, i: int) {
    && 0 <= i < |store|
    && Matches(store[i], q)
    && forall j :: 0 <= j < i ==> !Matches(store[j], q)
  }

  /** The position `Array.prototype.find` stops at: the first matching record. */
  function Find(store: Store, q: Query): (r: Option<nat>)
    ensures r.Some? <==> Exists(store, q)
    ensures r.Some? ==> IsFirstMatch(store, q, r.value)
  {
    if |store| == 0 then None
    else if Matches(store[0], q) then Some(0)
    else
      match Find(store[1..], q)
      case None =>
        assert forall j :: 1 <= j < |store| ==> store[j] == store[1..][j - 1];
        None
      case Some(i) =>
        assert forall j :: 1 <= j <= i + 1 ==> store[j] == store[1..][j - 1];
        Some(i + 1)
  }

  /** The record `users.find` returns, or `undefined`. */
  function Lookup(store: Store, q: Query): (r: Option<User>)
    ensures r.Some? <==> Exists(store, q)
    ensures r.Some? ==> exists i :: IsFirstMatch(store, q, i) && store[i] == r.value
  {
    match Find(store, q)
    case None => None
    case Some(i) => Some(store[i])
  }

  /** No two records share the same defined googleId. */
  ghost predicate UniqueGoogleIds(store: Store) {
    forall i, j ::
      0 <= i < |store| && 0 <= j < |store| && store[i].googleId.Some? && store[i].googleId == store[j].googleId
      ==> i == j
  }

  /** No two records share the same defined username. */
  ghost predicate UniqueUsernames(store: Store) {
    forall i, j ::
      0 <= i < |store| && 0 <= j < |store| && store[i].username.Some? && store[i].username == store[j].username
      ==> i == j
  }

  /** The directory invariant: records are unique per key. */
  ghost predicate Valid(store: Store) {
    UniqueGoogleIds(store) && UniqueUsernames(store)
  }

  /** Appending records never moves the first match of a query that the
      original store already answers. */
  lemma {:induction false} FindStableUnderAppend(store: Store, more: Store, q: Query)
    requires Exists(store, q)
    ensures Find(store + more, q) == Find(store, q)
  {
    var i := Find(store, q).value;
    assert (store + more)[i] == store[i];
    assert Exists(store + more, q);
    assert forall j :: 0 <= j < i ==> (store + more)[j] == store[j];
  }
}

=== FILE: federated.dfy ===
/** The Google verify callback and passport's session (de)serialisers of
    back/auth.js, as pure operations on the user directory. */
module Federated {
  import opened Wrappers
  import opened Directory

  /** The verified profile the identity provider hands to the verify
      callback: its stable id, a display name the provider may omit, and the
      values of its email list in provider order. */
  datatype Profile = Profile(id: string, displayName: Option<string>, emails: seq<string>)

  /** The directory after the callback, and the record handed to `done`. */
  datatype Resolved = Resolved(store: Store, user: User)

  /** The record the callback creates for a first-time federated login. */
  function NewRecord(p: Profile): User {
    var email := if |p.emails| > 0 then p.emails[0] else "";
    User(Some(p.id), p.displayName, Some(email), None, None)
  }

  /** Find-or-create by googleId: an existing record is returned and the store
      kept; otherwise exactly one record for the profile is appended. */
  function FindOrCreate(store: Store, p: Profile): (r: Resolved)
    ensures Exists(store, ByGoogleId(Some(p.id))) ==>
      && r.store == store
      && exists i :: IsFirstMatch(store, ByGoogleId(Some(p.id)), i) && r.user == store[i]
    ensures !Exists(store, ByGoogleId(Some(p.id))) ==>
      && r.store == store + [r.user]
      && r.user.googleId == Some(p.id)
      && r.user.displayName == p.displayName
      && (|p.emails| > 0 ==> r.user.email == Some(p.emails[0]))
      && (|p.emails| == 0 ==> r.user.email == Some(""))
      && r.user.username.None? && r.user.password.None?
  {
    match Find(store, ByGoogleId(Some(p.id)))
    case Some(i) => Resolved(store, store[i])
    case None => Resolved(store + [NewRecord(p)], NewRecord(p))
  }

  /** What passport keeps in the session for a record: its googleId. */
  function Serialize(u: User): (id: Option<string>)
    ensures id.Some? <==> u.googleId.Some?
    ensures forall store: Store | UniqueGoogleIds(store) && u in store && id.Some? :: Deserialize(store, id) == Some(u)
  {
    u.googleId
  }

  /** The record a session id stands for: the first record carrying that
      googleId, or none. */
  function Deserialize(store: Store, id: Option<string>): (r: Option<User>)
    ensures r.Some? ==> r.value in store && r.value.googleId == id
    ensures r.Some? ==> exists i :: IsFirstMatch(store, ByGoogleId(id), i) && store[i] == r.value
    ensures r.None? <==> forall i :: 0 <= i < |store| ==> store[i].googleId != id
  {
    Lookup(store, ByGoogleId(id))
  }

  /** Appending records never changes what an id already found deserialises to. */
  lemma {:induction false} DeserializeStableUnderAppend(store: Store, more: Store, id: Option<string>)
    requires Deserialize(store, id).Some?
    ensures Deserialize(store + more, id) == Deserialize(store, id)
  {
    FindStableUnderAppend(store, more, ByGoogleId(id));
  }

  /** The record the callback hands back always deserialises to itself in
      the directory the callback leaves behind. */
  lemma FindOrCreateRoundTrip(store: Store, p: Profile)
    ensures var r := FindOrCreate(store, p); Deserialize(r.store, Serialize(r.user)) == Some(r.user)
  {
    var r := FindOrCreate(store, p);
    var q := ByGoogleId(Some(p.id));
    if !Exists(store, q) {
      assert Matches(r.store[|store|], q);
      var i := Find(r.store, q).value;
      assert forall j :: 0 <= j < |store| ==> r.store[j] == store[j];
      assert i == |store|;
    }
  }

  /** Session round-trip: in a directory whose googleIds are unique, every
      federated record deserialises from its own serialised id. This restates
      the second postcondition of `Serialize` for callers that hold a record. */
  lemma RoundTrip(store: Store, u: User)
    requires UniqueGoogleIds(store)
    requires u in store && u.googleId.Some?
    ensures Deserialize(store, Serialize(u)) == Some(u)
  {
  }

  /** A second callback for the same provider id adds nothing and returns the
      record the first call produced, whatever display name or emails the
      second profile carries: find-or-create never overwrites. */
  lemma FindOrCreateIdempotent(store: Store, p: Profile, p': Profile)
    requires p'.id == p.id
    ensures var r := FindOrCreate(store, p); FindOrCreate(r.store, p') == r
  {
    var r := FindOrCreate(store, p);
    var q := ByGoogleId(Some(p.id));
    if Exists(store, q) {
      var i :| IsFirstMatch(store, q, i) && r.user == store[i];
      var k := Find(store, q).value;
      assert k == i;
    } else {
      assert Matches(r.store[|store|], q);
      FindOrCreateRoundTrip(store, p);
    }
  }

  /** Find-or-create keeps records unique per key. */
  lemma FindOrCreatePreservesValid(store: Store, p: Profile)
    requires Valid(store)
    ensures Valid(FindOrCreate(store, p).store)
  {
  }
}

=== FILE: local.dfy ===
/** The local username/password path of back/auth.js (`/register`, `/login`),
    as pure operations on the user directory and the session. */
module Local {
  import opened Wrappers
  import opened Directory
  import opened Sessions

  /** The abstract kind of the JSON reply each handler sends. */
  datatype Outcome = Ok | UserExists | InvalidCredentials

  datatype Registered = Registered(store: Store, outcome: Outcome)

  /** The record `/register` appends: the submitted fields, stored as given. */
  function LocalRecord(username: Option<string>, password: Option<string>): User {
    User(None, None, None, username, password)
  }

  /** `/register`: refused when any record already carries the submitted
      username (absent usernames included, as `===` compares them); otherwise
      exactly the submitted pair is appended. */
  function Register(store: Store, username: Option<string>, password: Option<string>): (r: Registered)
    ensures r.outcome == UserExists <==> Exists(store, ByUsername(username))
    ensures r.outcome == UserExists ==> r.store == store
    ensures r.outcome != UserExists ==>
      && r.outcome == Ok
      && |r.store| == |store| + 1
      && r.store[..|store|] == store
      && r.store[|store|].username == username
      && r.store[|store|].password == password
      && r.store[|store|].googleId.None?
      && r.store[|store|].displayName.None?
      && r.store[|store|].email.None?
  {
    if Find(store, ByUsername(username)).Some? then Registered(store, UserExists)
    else Registered(store + [LocalRecord(username, password)], Ok)
  }

  /** A successful registration keeps records unique per key. */
  lemma RegisterPreservesValid(store: Store, username: Option<string>, password: Option<string>)
    requires Valid(store)
    ensures Valid(Register(store, username, password).store)
  {
  }

  /** The reply of a login handler and the session it leaves behind; the
      store is only read, so it is not part of the result. */
  datatype LoggedIn = LoggedIn(session: Session, outcome: Outcome)

  /** `/login` as written: it succeeds iff some record equals the submitted
      username and password field by field, absent fields included, and on
      success writes the submitted username into the session. */
  function Login(store: Store, session: Session, username: Option<string>, password: Option<string>): (r: LoggedIn)
    ensures r.outcome == Ok <==> Exists(store, ByCredentials(username, password))
    ensures r.outcome == Ok ==> r.session == session.(user := username)
    ensures r.outcome != Ok ==> r.outcome == InvalidCredentials && r.session == session
  {
    if Find(store, ByCredentials(username, password)).Some? then LoggedIn(session.(user := username), Ok)
    else LoggedIn(session, InvalidCredentials)
  }

  /** A request that carries neither username nor password matches any record
      created by the federated path (both of its fields are absent): `/login`
      reports success, yet the session is left with no identity. */
  lemma LoginWithoutCredentials()
    ensures var store := [User(Some("g-1"), Some("Ann"), Some("ann@example.org"), None, None)];
            var r := Login(store, Anonymous, None, None);
            r.outcome == Ok && !HasIdentity(r.session)
  {
  }

  /** `/login` as evidently intended: a request must carry both a username and
      a password, and they must equal those of some record. */
  function LoginChecked(store: Store, session: Session, username: Option<string>, password: Option<string>): (r: LoggedIn)
    ensures r.outcome == Ok <==>
      exists i :: 0 <= i < |store| && store[i].username == username && store[i].password == password
                  && username.Some? && password.Some?
    ensures r.outcome == Ok ==> r.session.user == username && r.session.passport == session.passport
    ensures r.outcome == Ok ==> HasIdentity(r.session)
    ensures r.outcome != Ok ==> r.outcome == InvalidCredentials && r.session == session
  {
    if username.None? || password.None? then LoggedIn(session, InvalidCredentials)
    else Login(store, session, username, password)
  }

  /** A successful registration followed by a login with the same pair
      succeeds and records that username as the session identity; with a
      present username and password the corrected login does too. */
  lemma RegisterThenLogin(store: Store, session: Session, username: Option<string>, password: Option<string>)
    requires Register(store, username, password).outcome == Ok
    ensures var s := Register(store, username, password).store;
      && Login(s, session, username, password) == LoggedIn(session.(user := username), Ok)
      && (username.Some? && password.Some? ==>
            LoginChecked(s, session, username, password) == LoggedIn(session.(user := username), Ok))
  {
  }
}

=== FILE: server.dfy ===
/** One client's requests against the shared directory: the handlers of
    back/auth.js composed into a state machine, and the invariants that every
    sequence of requests keeps. */
module Server {
  import opened Wrappers
  import opened Directory
  import opened Federated
  import opened Sessions
  import opened Local

  datatype State = State(store: Store, session: Session)

  /** The requests whose handlers touch the directory or the session. */
  datatype Request =
    | GoogleCallback(profile: Profile)
    | RegisterRequest(username: Option<string>, password: Option<string>)
    | LoginRequest(username: Option<string>, password: Option<string>)
    | LogoutRequest

  /** One request. A federated login binds the serialised id of the record
      the callback resolved; a local login runs the handler as written. */
  function Step(s: State, req: Request): (r: State)
    ensures s.store <= r.store
    ensures |r.store| <= |s.store| + 1
    ensures req.LoginRequest? || req.LogoutRequest? ==> r.store == s.store
    ensures req.LogoutRequest? ==> !HasIdentity(r.session)
    ensures req.RegisterRequest? ==> r.session == s.session
    ensures req.GoogleCallback? ==> r.session.user == s.session.user
    ensures req.LoginRequest? && Exists(s.store, ByCredentials(req.username, req.password)) ==>
      r.session == s.session.(user := req.username)
    ensures req.LoginRequest? && !Exists(s.store, ByCredentials(req.username, req.password)) ==>
      r.session == s.session
  {
    match req
    case GoogleCallback(p) =>
      var res := FindOrCreate(s.store, p);
      State(res.store, s.session.(passport := Serialize(res.user)))
    case RegisterRequest(u, pw) =>
      State(Register(s.store, u, pw).store, s.session)
    case LoginRequest(u, pw) =>
      State(s.store, Login(s.store, s.session, u, pw).session)
    case LogoutRequest =>
      State(s.store, Logout(s.session))
  }

  /** A login request without username or password, sent while a local user
      is logged in, matches the federated record: the handler replies
      success and the session loses its user. */
  lemma EmptyLoginClearsUser()
    ensures var store := [User(Some("g"), None, Some(""), None, None), User(None, None, None, Some("bob"), Some("pw"))];
            var r := Step(State(store, Session(Some("bob"), None)), LoginRequest(None, None));
            r.session.user.None? && Login(store, Session(Some("bob"), None), None, None).outcome == Ok
  {
  }

  /** A sequence of requests, applied in order. */
  function Run(s: State, reqs: seq<Request>): (r: State)
    ensures s.store <= r.store
    ensures |r.store| <= |s.store| + |reqs|
    decreases |reqs|
  {
    if |reqs| == 0 then s else Run(Step(s, reqs[0]), reqs[1..])
  }

  /** The directory keeps unique keys, and whatever identity the session
      holds still names a record of the directory. */
  ghost predicate Consistent(s: State) {
    && Valid(s.store)
    && (s.session.passport.Some? ==> Deserialize(s.store, s.session.passport).Some?)
    && (s.session.user.Some? ==> Exists(s.store, ByUsername(s.session.user)))
  }

  /** The program starts with an empty directory and a fresh session, a
      consistent state. */
  lemma InitialConsistent()
    ensures Consistent(State([], Anonymous))
  {
  }

  /** A federated login leaves the session bound to exactly the record the
      callback resolved. */
  lemma GoogleCallbackBinds(s: State, p: Profile)
    ensures var r := Step(s, GoogleCallback(p));
      Deserialize(r.store, r.session.passport) == Some(FindOrCreate(s.store, p).user)
  {
    FindOrCreateRoundTrip(s.store, p);
  }

  /** Every request keeps the state consistent. */
  lemma StepPreservesConsistent(s: State, req: Request)
    requires Consistent(s)
    ensures Consistent(Step(s, req))
  {
    match req
    case GoogleCallback(p) =>
      FindOrCreatePreservesValid(s.store, p);
      FindOrCreateRoundTrip(s.store, p);
      if s.session.user.Some? {
        ExistsStableUnderAppend(s.store, Step(s, req).store, ByUsername(s.session.user));
      }
    case RegisterRequest(u, pw) =>
      RegisterPreservesValid(s.store, u, pw);
      var r := Step(s, req);
      if s.session.passport.Some? {
        ExistsStableUnderAppend(s.store, r.store, ByGoogleId(s.session.passport));
      }
      if s.session.user.Some? {
        ExistsStableUnderAppend(s.store, r.store, ByUsername(s.session.user));
      }
    case LoginRequest(u, pw) =>
      var r := Step(s, req);
      if r.session.user != s.session.user && r.session.user.Some? {
        var i := Find(s.store, ByCredentials(u, pw)).value;
        assert Matches(s.store[i], ByUsername(u));
      }
    case LogoutRequest =>
  }

  /** The directory is shared by every client. A request from another client,
      whatever its session, keeps this client's state consistent. */
  lemma OtherClientPreservesConsistent(s: State, other: Session, req: Request)
    requires Consistent(s)
    ensures Consistent(State(Step(State(s.store, other), req).store, s.session))
  {
    var grown := Step(State(s.store, other), req).store;
    match req {
      case GoogleCallback(p) => FindOrCreatePreservesValid(s.store, p);
      case RegisterRequest(u, pw) => RegisterPreservesValid(s.store, u, pw);
      case _ =>
    }
    if s.session.passport.Some? {
      ExistsStableUnderAppend(s.store, grown, ByGoogleId(s.session.passport));
    }
    if s.session.user.Some? {
      ExistsStableUnderAppend(s.store, grown, ByUsername(s.session.user));
    }
  }

  /** A record found in a directory is still found once more records are
      appended. */
  lemma ExistsStableUnderAppend(store: Store, grown: Store, q: Query)
    requires store <= grown
    requires Exists(store, q)
    ensures Exists(grown, q)
  {
  }

  /** Every sequence of requests keeps the state consistent. */
  lemma {:induction false} RunPreservesConsistent(s: State, reqs: seq<Request>)
    requires Consistent(s)
    ensures Consistent(Run(s, reqs))
    decreases |reqs|
  {
    if |reqs| > 0 {
      StepPreservesConsistent(s, reqs[0]);
      RunPreservesConsistent(Step(s, reqs[0]), reqs[1..]);
    }
  }

  /** Once a record deserialises from its own id, it keeps doing so after any
      further requests: the directory only grows at its end. */
  lemma {:induction false} RunKeepsRoundTrip(s: State, reqs: seq<Request>, u: User)
    requires Deserialize(s.store, Serialize(u)) == Some(u)
    ensures Deserialize(Run(s, reqs).store, Serialize(u)) == Some(u)
  {
    var grown := Run(s, reqs).store;
    var more := grown[|s.store|..];
    assert grown == s.store + more;
    DeserializeStableUnderAppend(s.store, more, Serialize(u));
  }
}

=== FILE: sessions.dfy ===
/** The server-side session of one client, as far as back/auth.js touches it. */
module Sessions {
  import opened Wrappers

  /** `user` is the field the local login writes (`req.session.user`);
      `passport` is the serialised federated identity passport keeps. Setting
      a field to `undefined` is indistinguishable from leaving it unset. */
  datatype Session = Session(user: Option<string>, passport: Option<string>)

  /** A session with no identity of either kind, as a fresh or destroyed one. */
  const Anonymous := Session(None, None)

  /** The session holds an identity of either kind. This is not passport's
      `req.isAuthenticated()`, which looks at the passport field alone. */
  predicate HasIdentity(s: Session) {
    s.user.Some? || s.passport.Some?
  }

  /** `/logout`: the session is destroyed, so no identity survives it. */
  function Logout(s: Session): (r: Session)
    ensures !HasIdentity(r)
  {
    Anonymous
  }
}

=== FILE: wrappers.dfy ===
/** An optional value, shared by the model. */
module Wrappers {

  /** A value that may be absent. `None` plays the part of JavaScript's
      `undefined`: two absent values compare equal, as `undefined === undefined`. */
  datatype Option<+T> = None | Some(value: T)
}
